=== FILE: README.md ===
# ipc::Pipe — a Dafny model

This project models the server end of the named-pipe transport `ipc::Pipe`
(`src/cvClient/ipc/ipc.cpp`). Four modules cover it:

- `Framing`: the wire format. Each message is sent as a 4-byte little-endian
  `uint32_t` length header followed by the payload. Both casts in the
  writer are modelled. `msg.size()` is cast to `uint32_t` for the header
  and the copy. The frame's length is cast to a 32-bit `DWORD` for
  `WriteFile`. So a message of 2^32 - 4 to 2^32 - 1 bytes gets a correct
  header, but fewer than four bytes of its frame are asked for
  (`LongMessageCut`).
- `PipeName`: the buffer `lpszPipename`. It is the prefix `\\.\pipe\`, then
  the caller's name up to its first NUL, then a NUL.
- `ReadDecoder`: the two-phase read loop of `readFunc`, as a pure function
  `Run` over the results of successive reads. This module proves:
  - the round trip: frames of non-empty messages shorter than 2^32 bytes
    decode to exactly those messages, each followed by one `read` emission;
  - the read sizes force the header/payload split;
  - the stop conditions: a zero header, a peer leaving between a header
    and its payload, and an empty message.
- `Ipc`: the class `Pipe`. Its state is the listener registry
  `eventHandlers`, the flags `pipeRunning` and `clientConnected`, the
  inbound `readQueue`, the outbound `writeQueue`, the bytes written, and a
  log of emitted events. It has the methods `On`, `RemoveListener`,
  `RemoveAllListeners`, `Connect` and `Close`, and the two loops.
  `ReadLoop` is proved to do exactly what `ReadDecoder.Run` says.
  `WriteLoop` is proved to hand `WriteFile` exactly the requests for the
  messages it sends. A message whose write is aborted is taken off the
  queue and lost. For messages whose frames are shorter than 2^32 bytes,
  the requests are exactly the frames (`WireOfShortMessages`), and the
  reader decodes them back (`WriteThenRead`).

Each system call becomes an input:
- a `ReadFile` ends as `Delivered(bytes)`, `BrokenPipe` or `Failed`;
- a `WriteFile` ends as `WriteCompleted` or `WriteAborted`;
- the connection wait ends as one of the `ConnectResult` cases.

A loop runs over a finite sequence of such results. When the read loop
runs out of them, the model stops where the program would block in its
next `ReadFile`. The write loop stops before it takes the next message off
the queue, whereas the program takes it off and then blocks in `WriteFile`.

## Model

| member | source | states |
|---|---|---|
| Framing.EncodeHeader | src/cvClient/ipc/ipc.cpp:271-273 | the header for a length below 2^32 is 4 bytes, and decoding it gives the length back |
| Framing.DecodeHeader | src/cvClient/ipc/ipc.cpp:222 | the length read from a 4-byte header is below 2^32 |
| Framing.HeaderDetermined | src/cvClient/ipc/ipc.cpp:222 | each 4-byte header is the encoding of the length it announces, so decoding is injective |
| Framing.FromToLittleEndian | src/cvClient/ipc/ipc.cpp:271-273 | reading back the little-endian digits of a number that fits in k bytes gives the number |
| Framing.ToFromLittleEndian | src/cvClient/ipc/ipc.cpp:222 | every byte string is the little-endian encoding of the number it denotes |
| Framing.Frame | src/cvClient/ipc/ipc.cpp:271-274 | the frame is 4 + (size mod 2^32) bytes: a header announcing size mod 2^32, then that many leading payload bytes |
| Framing.Frames | src/cvClient/ipc/ipc.cpp:259-274 | the frames of a batch of messages, one after the other; it has no contract of its own and is characterised by `FramesAppend`, `FramesLength` and `FrameReadsCarryFrames` |
| Framing.FrameOfFittingMessage | src/cvClient/ipc/ipc.cpp:271-274 | a message shorter than 2^32 bytes is framed as its exact length followed by all of it |
| Framing.FramesAppend | src/cvClient/ipc/ipc.cpp:259-274 | writing two batches of messages puts all frames of the first before all frames of the second |
| Framing.FramesLength | src/cvClient/ipc/ipc.cpp:271-276 | the wire length of fitting messages is 4 bytes per message plus the payload sizes |
| Framing.Dword | src/cvClient/ipc/ipc.cpp:284 | the `DWORD` cast of a byte count is below 2^32, never more than the count, and the count itself when that is below 2^32 |
| Framing.WriteRequest | src/cvClient/ipc/ipc.cpp:271-284 | `WriteFile` is asked for (4 + (size mod 2^32)) mod 2^32 bytes |
| Framing.WriteRequestIsPrefix | src/cvClient/ipc/ipc.cpp:276-284 | what is asked for is a leading part of the frame, and the whole frame exactly when the frame is shorter than 2^32 bytes |
| Framing.WriteRequestOfShortMessage | src/cvClient/ipc/ipc.cpp:271-284 | a message whose frame is shorter than 2^32 bytes is written whole: its exact length, then all of it |
| Framing.LongMessageCut | src/cvClient/ipc/ipc.cpp:271-284 | a message of 2^32 - 4 to 2^32 - 1 bytes is asked for as size + 4 - 2^32 bytes, fewer than four: a cut header and none of the payload |
| Framing.Wire | src/cvClient/ipc/ipc.cpp:259-284 | the bytes handed to `WriteFile` for a batch of messages, one request after the other; it has no contract of its own and is characterised by `WireAppend`, `WriteRequestIsPrefix` and `WireOfShortMessages` |
| Framing.WireAppend | src/cvClient/ipc/ipc.cpp:259-284 | writing two batches of messages puts all requests of the first before all requests of the second |
| Framing.WireOfShortMessages | src/cvClient/ipc/ipc.cpp:259-284 | for messages whose frames are shorter than 2^32 bytes, the bytes handed to `WriteFile` are exactly their frames |
| PipeName.CString | src/cvClient/ipc/ipc.cpp:22 | `strlen`: the result is a NUL-free prefix of the input, ending where the input ends or at a NUL |
| PipeName.NameBuffer | src/cvClient/ipc/ipc.cpp:20-28 | the buffer holds prefixLen + nameLen + 1 characters: the prefix, then the name up to its first NUL, then a NUL |
| PipeName.NameSeenBySystem | src/cvClient/ipc/ipc.cpp:20-31 | the name the system reads from the buffer is the prefix followed by the caller's name up to its first NUL |
| PipeName.PlainName | src/cvClient/ipc/ipc.cpp:20-28 | for a name without NUL, the buffer is exactly prefix, name, NUL: 9 + length + 1 characters |
| PipeName.PrefixShape | src/cvClient/ipc/ipc.cpp:20-21 | the prefix is 9 characters long and contains no NUL |
| ReadDecoder.Requested | src/cvClient/ipc/ipc.cpp:164-170 | a read asks for 4 bytes in the header phase and for the announced size in the payload phase; it has no contract of its own and is used by `WholeReads` and `SplitIsForced` |
| ReadDecoder.StepOf | src/cvClient/ipc/ipc.cpp:184-241 | one iteration of the loop after its read returns; it has no contract of its own and is characterised, case by case and in both directions, by `StepCases` |
| ReadDecoder.WholeReads | src/cvClient/ipc/ipc.cpp:211-221 | every delivered read has either no bytes or exactly as many as the phase it is made in asks for; it has no contract of its own and is the assumption under which `ReadLoop`, `SplitIsForced` and `DecodeFrames` hold |
| ReadDecoder.StepCases | src/cvClient/ipc/ipc.cpp:160-241 | one iteration, case by case and in both directions: a broken pipe or a 0-byte read ends the loop as a disconnect; any other failure ends it; a zero header ends it as invalid; a non-zero header switches to the payload phase for that length; a payload is pushed, `read` is emitted and the header phase resumes |
| ReadDecoder.Run | src/cvClient/ipc/ipc.cpp:160-242 | the loop uses at most the results it is given, and when it ends waiting for more it has used all of them |
| ReadDecoder.RoundTrip | src/cvClient/ipc/ipc.cpp:215-241 | reading the frames of non-empty messages m1..mk, each shorter than 2^32 bytes, queues exactly m1..mk in order, emits `read` k times (push, then emit, per message) and ends in the header phase after 2k reads |
| ReadDecoder.RunFrames | src/cvClient/ipc/ipc.cpp:160-242 | after the reads of some frames, the loop has pushed and emitted for each frame and continues in the header phase with whatever follows |
| ReadDecoder.SplitIsForced | src/cvClient/ipc/ipc.cpp:164-170 | whole, non-empty reads that deliver the frames of some messages can only be the header/payload split of those frames |
| ReadDecoder.DecodeFrames | src/cvClient/ipc/ipc.cpp:160-242 | any whole, non-empty reads of the frames the writer builds, for non-empty messages shorter than 2^32 bytes, queue exactly those messages, with one `read` each; the bytes actually handed to `WriteFile` are covered by `WriteThenRead` |
| ReadDecoder.FrameReadsCarryFrames | src/cvClient/ipc/ipc.cpp:164-170 | the header/payload reads of some frames deliver exactly the frames' bytes, in order |
| ReadDecoder.WriteThenRead | src/cvClient/ipc/ipc.cpp:160-284 | from writer to reader: the bytes the write loop asks `WriteFile` for, for non-empty messages whose frames are shorter than 2^32 bytes, read back in any whole, non-empty reads, queue exactly those messages in order with one `read` each |
| ReadDecoder.ZeroHeaderStops | src/cvClient/ipc/ipc.cpp:224-227 | a header announcing 0 after some frames ends the loop as invalid; nothing more is queued, whatever follows |
| ReadDecoder.CutPayloadNotQueued | src/cvClient/ipc/ipc.cpp:201-219 | a peer that leaves after a header but before its payload ends the loop as a disconnect; the earlier messages are queued and the cut one is not |
| ReadDecoder.EmptyMessageStopsReader | src/cvClient/ipc/ipc.cpp:271-274 | the writer frames an empty message with a zero header, and the reader stops on it with nothing queued |
| ReadDecoder.InterleavedOrder | src/cvClient/ipc/ipc.cpp:232-240 | in the loop's trace, message k is pushed at position 2k and its `read` emission follows at 2k+1 |
| ReadDecoder.InterleavedProjections | src/cvClient/ipc/ipc.cpp:232-240 | the trace for some messages pushes exactly those messages and emits one `read` per message |
| ReadDecoder.HelloScenario | src/cvClient/ipc/ipc.cpp:160-241 | the bytes `05 00 00 00` followed by `hello` queue the one message `hello` and emit `read` once |
| Ipc.Sent | src/cvClient/ipc/ipc.cpp:259-307 | the messages sent are the completed writes at the head of the results, at most one per queued message; the next write, if there is one, was aborted |
| Ipc.Popped | src/cvClient/ipc/ipc.cpp:262-269 | the messages taken off the queue are the ones sent, plus the one whose write was aborted, if any |
| Ipc.SentAll | src/cvClient/ipc/ipc.cpp:259-307 | when every write completes, the whole queue is sent and popped |
| Ipc.Pipe.Handlers | src/cvClient/ipc/ipc.cpp:325 | the listeners of an event: its list when the event has an entry, none otherwise, as `eventHandlers[event]` creates an empty list here and at line 338; it has no contract of its own and is used by the contracts of `On`, `RemoveListener` and `RemoveAllListeners` |
| Ipc.Pipe.constructor | src/cvClient/ipc/ipc.cpp:16-46 | the pipe gets its name buffer and is running; it has no client, no listeners and empty queues |
| Ipc.Pipe.Close | src/cvClient/ipc/ipc.cpp:54-55 | the destructor's first step clears `pipeRunning` |
| Ipc.Pipe.Connect | src/cvClient/ipc/ipc.cpp:94-134 | `clientConnected` is set exactly by an immediate connection, a completed wait or an already-connected client |
| Ipc.Pipe.On | src/cvClient/ipc/ipc.cpp:318-329 | an unknown event gives -1 and changes nothing; otherwise the handler is appended and its id is the new list length (at least 1); other events are untouched |
| Ipc.Pipe.RemoveListener | src/cvClient/ipc/ipc.cpp:331-346 | for a known event and an id in 1..length, exactly that handler is removed, the others keep their order, and the id is returned; otherwise -1 is returned and no list changes |
| Ipc.Pipe.RemoveAllListeners | src/cvClient/ipc/ipc.cpp:348-358 | for a known event, its entry is erased and 0 is returned; otherwise -1 is returned and nothing changes; other events are untouched |
| Ipc.Pipe.Emit | src/cvClient/include/ipc.h:38 | an emission is recorded after every earlier one |
| Ipc.Pipe.HandleRead | src/cvClient/ipc/ipc.cpp:184-241 | one read result is handled exactly as `StepOf` says: the phase, the pushes and emissions, the `clientConnected` update, and whether the loop goes on; after a non-zero header the message buffer is resized to the announced size, and after a payload it is left empty |
| Ipc.Pipe.ReadLoop | src/cvClient/ipc/ipc.cpp:145-247 | while running and connected, the loop pushes exactly the messages `Run` pushes and emits exactly what it emits, in the same interleaving, and clears `clientConnected` exactly on a disconnect; otherwise nothing changes |
| Ipc.Pipe.ReadOne | src/cvClient/ipc/ipc.cpp:160-241 | one pass of the loop moves the replay of `Run` one read result forward, or ends the loop with the replay complete |
| Ipc.Pipe.WriteLoop | src/cvClient/ipc/ipc.cpp:249-315 | while running and connected, the loop takes the popped messages off the front of the queue. For each sent one it appends to the wire exactly the bytes `WriteFile` is asked for: the frame cut to its `DWORD` length. Otherwise nothing changes |
| Ipc.RegisterAfterClear | src/cvClient/ipc/ipc.cpp:318-358 | after `removeAllListeners` on a known event, the next `on` returns id 1 and the list holds only the new handler |
| Ipc.OnThenRemove | src/cvClient/ipc/ipc.cpp:318-346 | removing a listener by the id `on` returned for it restores every event's list |

## Left out

- Win32 calls are inputs. `CreateNamedPipeA`, `CreateEvent`, `ConnectNamedPipe`, `ReadFile`, `WriteFile`, `WaitForMultipleObjects`, `GetOverlappedResult`, `CancelIo` and `CloseHandle` are replaced by the results they end with. Handle values and pipe creation failure are not modelled.
- Threads and mutexes are not modelled. The connect, read and write threads are method calls, so there is no concurrency and no interleaving between the loops and the registry.
- The stop event is the `Failed` read result or the `WriteAborted` write result. Neither can be told apart from a failed `GetOverlappedResult` or another read or write error, because the loop reacts to all of them in the same way.
- Ipc.Pipe.ReadLoop: it requires `WholeReads`, i.e. each read returns either all the bytes asked for or none. The program assumes this without checking `bytesRead`. A short read is not modelled. The program never compares `bytesRead` with `bytesToRead` (`src/cvClient/ipc/ipc.cpp:211-215`). So a peer that sends part of a payload and then leaves makes the program queue the whole `msgSize`-byte buffer, zero-padded after the bytes received, and emit `read`. A short header read is likewise decoded from a partly filled buffer. The model cannot show either case.
- Ipc.Pipe.ReadLoop: when the given results run out, it stops where the program would block in its next `ReadFile` (`Waiting`).
- Ipc.Pipe.WriteLoop: a completed write is assumed to be whole, as on a blocking (`PIPE_WAIT`) byte-mode pipe. The program never compares `bytesWritten` with the length it asked for.
- Ipc.Pipe.WriteLoop: an aborted write is assumed to put nothing on the wire. A write cancelled by the stop event after `ERROR_IO_PENDING` may already have sent part of its frame.
- Ipc.Pipe.WriteLoop: failure to allocate `writeBuf` (4 + size bytes) is not modelled. In the program, `std::bad_alloc` would escape the thread and end the process.
- Ipc.Pipe.HandleRead: failure of `messageBuf.resize(msgSize)` is not modelled. The size is chosen by the peer, up to 2^32 - 1, and `std::bad_alloc` would end the process. The model always moves to the payload phase.
- ReadDecoder.StepOf: a non-zero header always moves to the payload phase, because allocation failure of the payload buffer is not modelled.
- Ipc.Pipe.WriteLoop: when the given write results run out, the model stops before taking the next message off the queue, so that message stays in `writeQueue`. The program takes it off (`src/cvClient/ipc/ipc.cpp:267-268`) before it blocks in `WriteFile`. `Popped` therefore counts only the messages whose write has ended.
- Ipc.Pipe.WriteLoop: when the queue is empty, it returns where the program busy-waits for a message to arrive; refilling the queue from another thread is not modelled.
- Ipc.Pipe.Emit: calling the handlers is not modelled; the emitted event names are recorded in order instead. `emit` is declared in `src/cvClient/include/ipc.h` but not defined in the source files, and its definition is not part of this model.
- Ipc.Pipe.On: the source's `int` id is modelled as an unbounded integer, so overflow beyond 2^31 - 1 handlers is not modelled.
- PipeName.NameBuffer: each Dafny `char` stands for one C `char`, a byte in the ANSI code page that `CreateNamedPipeA` reads. Character encodings are not modelled: a name is taken as already given in C `char`s, so `strlen` and the buffer length count those.
- PipeName.CString: counts Dafny `char`s, each standing for one C `char`, as stated above.
- Handlers are an opaque type parameter. `std::function` values are stored and removed but never compared or called.
- Logging to `std::cout` and `std::cerr` is not modelled.
- `read` and `write` are stubs that return 0 and touch nothing; they are not modelled.
- `clientConnected` is never initialised in the source, and the constructor model starts it as false. `pipeRunning`, `clientConnected`, the queues, their mutexes and `stopEvent` are used in `ipc.cpp` but not declared in `ipc.h`; the model declares them.
- The destructor's joins, `DisconnectNamedPipe`, `CloseHandle` and `delete[]` are not modelled; only its first step, clearing `pipeRunning`, is.
- The connection wait does not emit a `connect` event, because the source does not. Starting the read and write threads after a connection is modelled as the caller invoking `ReadLoop` and `WriteLoop`.
- The writer frames an empty message with a zero header, and the reader rejects that header and stops (`EmptyMessageStopsReader`). Nothing on the sending side refuses empty messages, and the model keeps that behaviour.

=== FILE: framing.dfy ===
/** The wire format of one message on the pipe: a 32-bit length header
    followed by the payload bytes. The header is the in-memory image of a
    `uint32_t`, which on the x86 Windows target is little-endian. */
module Framing {

  /** One byte on the wire (a `char` in the implementation). */
  type Byte = b: int | 0 <= b < 256

  type Message = seq<Byte>

  /** 2^32: one more than the largest value a `uint32_t` header can carry. */
  const U32Limit: nat := 0x1_0000_0000

  /** Number of bytes in a header (`sizeof(uint32_t)`). */
  const HeaderSize: nat := 4

  function Pow256(k: nat): (p: nat)
    ensures p >= 1
  {
    if k == 0 then 1 else 256 * Pow256(k - 1)
  }

  lemma U32LimitIsPow256()
    ensures Pow256(HeaderSize) == U32Limit
  {
    assert Pow256(1) == 256;
    assert Pow256(2) == 65536;
    assert Pow256(3) == 16777216;
  }

  /** The `k` least significant base-256 digits of `n`, least significant first. */
  function ToLittleEndian(n: nat, k: nat): (r: seq<Byte>)
    ensures |r| == k
  {
    if k == 0 then [] else [n % 256] + ToLittleEndian(n / 256, k - 1)
  }

  /** The number whose little-endian digits are `b`. */
  function FromLittleEndian(b: seq<Byte>): (n: nat)
    ensures n < Pow256(|b|)
  {
    if b == [] then 0 else b[0] + 256 * FromLittleEndian(b[1..])
  }

  /** Reading back the digits of a number that fits in `k` bytes gives the number. */
  lemma {:induction false} FromToLittleEndian(n: nat, k: nat)
    requires n < Pow256(k)
    ensures FromLittleEndian(ToLittleEndian(n, k)) == n
  {
    if k > 0 {
      var r := ToLittleEndian(n, k);
      assert r[1..] == ToLittleEndian(n / 256, k - 1);
      FromToLittleEndian(n / 256, k - 1);
    }
  }

  /** Every byte string is the encoding of the number it denotes. */
  lemma {:induction false} ToFromLittleEndian(b: seq<Byte>)
    ensures ToLittleEndian(FromLittleEndian(b), |b|) == b
  {
    if b != [] {
      var n := FromLittleEndian(b);
      var rest := FromLittleEndian(b[1..]);
      assert n % 256 == b[0] && n / 256 == rest;
      ToFromLittleEndian(b[1..]);
    }
  }

  /** The header written for a payload of `n` bytes. */
  function EncodeHeader(n: nat): (h: seq<Byte>)
    requires n < U32Limit
    ensures |h| == HeaderSize
    ensures DecodeHeader(h) == n
  {
    U32LimitIsPow256();
    FromToLittleEndian(n, HeaderSize);
    ToLittleEndian(n, HeaderSize)
  }

  /** The payload length announced by a header (`memcpy(&msgSize, headerBuf, 4)`). */
  function DecodeHeader(h: seq<Byte>): (n: nat)
    requires |h| == HeaderSize
    ensures n < U32Limit
  {
    U32LimitIsPow256();
    FromLittleEndian(h)
  }

  /** Decoding is injective: a header is determined by the length it announces. */
  lemma {:induction false} HeaderDetermined(h: seq<Byte>)
    requires |h| == HeaderSize
    ensures EncodeHeader(DecodeHeader(h)) == h
  {
    ToFromLittleEndian(h);
  }

  /** The frame the write loop builds for `m`: `msg.size()` is cast to
      `uint32_t`, so only the low 32 bits of the length survive, and exactly
      that many payload bytes are copied behind the header. */
  function Frame(m: Message): (f: seq<Byte>)
    ensures |f| == HeaderSize + |m| % U32Limit
    ensures DecodeHeader(f[..HeaderSize]) == |m| % U32Limit
    ensures f[HeaderSize..] == m[..|m| % U32Limit]
  {
    var size := |m| % U32Limit;
    EncodeHeader(size) + m[..size]
  }

  /** A message that fits the header is framed as its length followed by all of it. */
  lemma FrameOfFittingMessage(m: Message)
    requires |m| < U32Limit
    ensures Frame(m) == EncodeHeader(|m|) + m
    ensures |Frame(m)| == HeaderSize + |m|
  {
    assert m[..|m|] == m;
  }

  /** The byte stream produced by writing the messages `ms` one after the other. */
  function Frames(ms: seq<Message>): (w: seq<Byte>)
  {
    if ms == [] then [] else Frame(ms[0]) + Frames(ms[1..])
  }

  /** Writing `a` then `b` puts the frames of `a` before the frames of `b`. */
  lemma {:induction false} FramesAppend(a: seq<Message>, b: seq<Message>)
    ensures Frames(a + b) == Frames(a) + Frames(b)
  {
    if a == [] {
      assert a + b == b;
    } else {
      assert (a + b)[1..] == a[1..] + b;
      FramesAppend(a[1..], b);
    }
  }

  /** Messages the reader accepts: non-empty, and short enough for the header. */
  predicate Sendable(m: Message)
  {
    0 < |m| < U32Limit
  }

  /** The wire length of fitting messages is four bytes of header per message plus the payloads. */
  lemma {:induction false} FramesLength(ms: seq<Message>)
    requires forall i :: 0 <= i < |ms| ==> |ms[i]| < U32Limit
    ensures |Frames(ms)| == HeaderSize * |ms| + TotalSize(ms)
  {
    if ms != [] {
      FrameOfFittingMessage(ms[0]);
      FramesLength(ms[1..]);
    }
  }

  function TotalSize(ms: seq<Message>): nat
  {
    if ms == [] then 0 else |ms[0]| + TotalSize(ms[1..])
  }

  /** `static_cast<DWORD>` of a byte count: its low 32 bits. */
  function Dword(n: nat): (d: nat)
    ensures d < U32Limit && d <= n
    ensures n < U32Limit ==> d == n
  {
    n % U32Limit
  }

  /** The bytes the write loop asks `WriteFile` for: the frame's length is
      cast to a 32-bit `DWORD`, so a frame of 2^32 bytes or more is cut to
      its first (length mod 2^32) bytes. */
  function WriteRequest(m: Message): (w: seq<Byte>)
    ensures |w| == (HeaderSize + |m| % U32Limit) % U32Limit
  {
    var f := Frame(m);
    f[..Dword(|f|)]
  }

  /** What is asked for is always a leading part of the frame, and all of it
      exactly when the frame is shorter than 2^32 bytes. */
  lemma WriteRequestIsPrefix(m: Message)
    ensures WriteRequest(m) == Frame(m)[..|WriteRequest(m)|]
    ensures WriteRequest(m) == Frame(m) <==> |Frame(m)| < U32Limit
  {
    var f := Frame(m);
    if |f| < U32Limit {
      assert f[..|f|] == f;
    }
  }

  /** A message whose frame fits the `DWORD` is written whole: its length
      followed by all of it. */
  lemma WriteRequestOfShortMessage(m: Message)
    requires |m| + HeaderSize < U32Limit
    ensures WriteRequest(m) == Frame(m) == EncodeHeader(|m|) + m
  {
    FrameOfFittingMessage(m);
    assert Frame(m)[..|Frame(m)|] == Frame(m);
  }

  /** A message of 2^32 - 4 to 2^32 - 1 bytes passes the `uint32_t` header
      but not the `DWORD` cast: fewer than four bytes, a cut header, are
      asked for, and none of the payload. */
  lemma LongMessageCut(m: Message)
    requires U32Limit - HeaderSize <= |m| < U32Limit
    ensures |WriteRequest(m)| == |m| + HeaderSize - U32Limit < HeaderSize
    ensures WriteRequest(m) == EncodeHeader(|m|)[..|m| + HeaderSize - U32Limit]
  {
    FrameOfFittingMessage(m);
    var k := |m| + HeaderSize - U32Limit;
    assert |WriteRequest(m)| == k;
    assert (EncodeHeader(|m|) + m)[..k] == EncodeHeader(|m|)[..k];
  }

  /** The byte stream the write loop hands to `WriteFile` for the messages
      `ms`, one after the other. */
  function Wire(ms: seq<Message>): (w: seq<Byte>)
  {
    if ms == [] then [] else WriteRequest(ms[0]) + Wire(ms[1..])
  }

  /** Writing `a` then `b` puts the requests of `a` before those of `b`. */
  lemma {:induction false} WireAppend(a: seq<Message>, b: seq<Message>)
    ensures Wire(a + b) == Wire(a) + Wire(b)
  {
    if a == [] {
      assert a + b == b;
    } else {
      assert (a + b)[1..] == a[1..] + b;
      WireAppend(a[1..], b);
    }
  }

  /** For messages whose frames fit the `DWORD`, the wire carries exactly
      their frames. */
  lemma {:induction false} WireOfShortMessages(ms: seq<Message>)
    requires forall i :: 0 <= i < |ms| ==> |ms[i]| + HeaderSize < U32Limit
    ensures Wire(ms) == Frames(ms)
  {
    if ms != [] {
      WriteRequestOfShortMessage(ms[0]);
      WireOfShortMessages(ms[1..]);
    }
  }
}

=== FILE: pipe.dfy ===
/** The server end of the named pipe, `ipc::Pipe`: its listener registry,
    the two message queues, the read loop that fills the inbound queue and
    the write loop that drains the outbound one. The three worker threads,
    their mutexes and the Win32 calls are not modelled; each loop is run here
    as one call that takes the results of its system calls as input. */
module Ipc {
  import opened Framing
  import opened ReadDecoder
  import PipeName

  /** The event names `on`, `removeListener` and `removeAllListeners` accept. */
  const Events: set<string> := {"connect", "data", "read", "write"}

  /** How `ConnectNamedPipe` and the wait on it end. */
  datatype ConnectResult =
    | ConnectedAtOnce      // ConnectNamedPipe returned TRUE
    | ConnectedAfterWait   // ERROR_IO_PENDING, then the overlapped event fired
    | AlreadyConnected     // ERROR_PIPE_CONNECTED
    | StoppedWhileWaiting  // ERROR_IO_PENDING, then the stop event fired
    | ConnectFailed        // any other error
    | NoEventObject        // CreateEvent for the overlapped structure failed

  /** How one overlapped `WriteFile` of a frame ends: the frame was accepted,
      or the loop left (stop event, failed `GetOverlappedResult`, other error). */
  datatype WriteResult = WriteCompleted | WriteAborted

  /** The number of messages the write loop hands to the system before it
      stops: the completed writes at the head of `results`, at most one per
      queued message. */
  function Sent(queued: nat, results: seq<WriteResult>): (n: nat)
    ensures n <= queued && n <= |results|
    ensures forall k :: 0 <= k < n ==> results[k] == WriteCompleted
    ensures n < queued && n < |results| ==> results[n] == WriteAborted
  {
    if queued == 0 || results == [] || results[0] == WriteAborted then 0
    else
      var rest := Sent(queued - 1, results[1..]);
      assert results[0] == WriteCompleted;
      assert forall k :: 1 <= k < 1 + rest ==> results[k] == results[1..][k - 1];
      1 + rest
  }

  /** The number of messages the write loop takes off the queue: the ones
      sent, plus the one whose write was aborted, if any. */
  function Popped(queued: nat, results: seq<WriteResult>): (n: nat)
    ensures Sent(queued, results) <= n <= queued
    ensures n <= Sent(queued, results) + 1
    ensures n == Sent(queued, results) + 1 <==>
              Sent(queued, results) < queued && Sent(queued, results) < |results|
  {
    var sent := Sent(queued, results);
    if sent < queued && sent < |results| then sent + 1 else sent
  }

  /** When every write completes, the loop sends the whole queue. */
  lemma {:induction false} SentAll(queued: nat, results: seq<WriteResult>)
    requires queued <= |results|
    requires forall k :: 0 <= k < |results| ==> results[k] == WriteCompleted
    ensures Sent(queued, results) == queued
    ensures Popped(queued, results) == queued
  {
    if queued > 0 {
      SentAll(queued - 1, results[1..]);
    }
  }

  class Pipe<H> {
    /** `lpszPipename`: the NUL-terminated name the pipe is created under. */
    var lpszPipename: string
    var pipeRunning: bool
    var clientConnected: bool
    /** `eventHandlers`: the listeners of each event, in registration order. */
    var eventHandlers: map<string, seq<H>>
    /** Received messages not yet consumed (front first). */
    var readQueue: seq<Message>
    /** Messages waiting to be written (front first). */
    var writeQueue: seq<Message>
    /** The events passed to `emit`, oldest first. */
    var emitted: seq<string>
    /** The bytes handed to `WriteFile`, in order. */
    var wire: seq<Byte>
    /** Pushes onto `readQueue` and emissions, in the order they happened. */
    ghost var history: seq<Action>

    /** The listeners of `event`; `operator[]` gives an empty list for an
        event that has none. */
    function Handlers(event: string): seq<H>
      reads this
    {
      if event in eventHandlers then eventHandlers[event] else []
    }

    /** Builds the pipe name; the pipe starts running but has no client yet. */
    constructor (pipeName: string)
      ensures lpszPipename == PipeName.NameBuffer(pipeName)
      ensures pipeRunning && !clientConnected
      ensures eventHandlers == map[] && readQueue == [] && writeQueue == []
      ensures emitted == [] && wire == [] && history == []
    {
      lpszPipename := PipeName.NameBuffer(pipeName);
      pipeRunning := true;
      clientConnected := false;
      eventHandlers := map[];
      readQueue := [];
      writeQueue := [];
      emitted := [];
      wire := [];
      history := [];
    }

    /** The destructor's first step: every loop sees the pipe as stopped. */
    method Close()
      modifies this`pipeRunning
      ensures !pipeRunning
    {
      pipeRunning := false;
    }

    /** The outcome of waiting for a client: only a connection sets
        `clientConnected`; nothing ever clears it here. */
    method Connect(result: ConnectResult)
      modifies this`clientConnected
      ensures clientConnected <==>
                old(clientConnected) || result in {ConnectedAtOnce, ConnectedAfterWait, AlreadyConnected}
    {
      match result
      case ConnectedAtOnce => clientConnected := true;
      case ConnectedAfterWait => clientConnected := true;
      case AlreadyConnected => clientConnected := true;
      case _ =>
    }

    /** Registers `handler` for `event`. An event outside `Events` is refused
        with -1 and nothing changes; otherwise the handler goes to the end of
        the event's list and its id, its 1-based position, is returned. */
    method On(event: string, handler: H) returns (id: int)
      modifies this`eventHandlers
      ensures event !in Events ==> id == -1 && eventHandlers == old(eventHandlers)
      ensures event in Events ==>
                Handlers(event) == old(Handlers(event)) + [handler] &&
                id == |Handlers(event)| && id >= 1 && Handlers(event)[id - 1] == handler
      ensures forall e :: e != event ==> Handlers(e) == old(Handlers(e))
    {
      if event !in Events {
        return -1;
      }
      eventHandlers := eventHandlers[event := Handlers(event) + [handler]];
      id := |eventHandlers[event]|;
    }

    /** Removes the handler with id `id` from `event`'s list. A known event and
        an id in `1..|list|` remove exactly that handler, keep the others in
        order and return `id`; anything else returns -1 and leaves every list
        as it was. */
    method RemoveListener(event: string, id: int) returns (r: int)
      modifies this`eventHandlers
      ensures event !in Events ==> r == -1 && eventHandlers == old(eventHandlers)
      ensures event in Events && 1 <= id <= |old(Handlers(event))| ==>
                r == id &&
                Handlers(event) == old(Handlers(event))[..id - 1] + old(Handlers(event))[id..]
      ensures !(event in Events && 1 <= id <= |old(Handlers(event))|) ==>
                r == -1 && Handlers(event) == old(Handlers(event))
      ensures forall e :: e != event ==> Handlers(e) == old(Handlers(e))
    {
      if event !in Events {
        return -1;
      }
      var list := Handlers(event);
      eventHandlers := eventHandlers[event := list];
      if 1 <= id <= |list| {
        eventHandlers := eventHandlers[event := list[..id - 1] + list[id..]];
        r := id;
      } else {
        r := -1;
      }
    }

    /** Drops every handler of `event` and returns 0; an unknown event
        returns -1 and changes nothing. */
    method RemoveAllListeners(event: string) returns (r: int)
      modifies this`eventHandlers
      ensures event !in Events ==> r == -1 && eventHandlers == old(eventHandlers)
      ensures event in Events ==> r == 0 && Handlers(event) == [] && event !in eventHandlers
      ensures forall e :: e != event ==> Handlers(e) == old(Handlers(e))
    {
      if event !in Events {
        return -1;
      }
      eventHandlers := eventHandlers - {event};
      r := 0;
    }

    /** Records an emission of `event`. */
    method Emit(event: string)
      modifies this`emitted, this`history
      ensures emitted == old(emitted) + [event]
      ensures history == old(history) + [Notify(event)]
    {
      emitted := emitted + [event];
      history := history + [Notify(event)];
    }

    /** What the read loop does with one read result once the read has
        returned, in the phase given by `readingHeader` and `msgSize`:
        exactly the step `StepOf` describes. `more` is false where the loop
        breaks out; a break on a 0-byte read or a broken pipe also clears
        `clientConnected`. */
    method HandleRead(r: ReadResult, readingHeader: bool, msgSize: nat, messageBuf: seq<Byte>)
      returns (more: bool, nextReadingHeader: bool, nextMsgSize: nat, nextMessageBuf: seq<Byte>)
      modifies this`readQueue, this`clientConnected, this`emitted, this`history
      ensures var s := StepOf(PhaseOf(readingHeader, msgSize), r);
              && more == s.Next?
              && (more ==> PhaseOf(nextReadingHeader, nextMsgSize) == s.phase)
              && history == old(history) + ActionsOf(s)
              && readQueue == old(readQueue) + Pushed(ActionsOf(s))
              && emitted == old(emitted) + Emitted(ActionsOf(s))
              && clientConnected == (old(clientConnected) && s != Halt(ClientClosed))
      ensures more && readingHeader ==> |nextMessageBuf| == nextMsgSize
      ensures more && !readingHeader ==> nextMessageBuf == []
    {
      more, nextReadingHeader, nextMsgSize, nextMessageBuf := false, readingHeader, msgSize, messageBuf;
      if r.BrokenPipe? {
        clientConnected := false;
        return;
      } else if r.Failed? {
        return;
      }
      var bytes := r.bytes;
      if |bytes| == 0 {
        clientConnected := false;
        return;
      }
      if readingHeader {
        nextMsgSize := FromLittleEndian(bytes);
        if nextMsgSize == 0 {
          return;
        }
        nextMessageBuf := seq(nextMsgSize, _ => 0);
        nextReadingHeader := false;
      } else {
        nextMessageBuf := bytes;
        readQueue := readQueue + [nextMessageBuf];
        history := history + [Push(nextMessageBuf)];
        nextMessageBuf := [];
        nextReadingHeader := true;
        Emit("read");
        ProjectionsOfPair(bytes);
      }
      more := true;
    }

    /** The logs kept since `h0`, `q0` and `e0` are the trace `t` and its
        projections: `t` was done, its messages queued, its events emitted. */
    ghost predicate Replays(h0: seq<Action>, q0: seq<Message>, e0: seq<string>, t: seq<Action>)
      reads this
    {
      && history == h0 + t
      && readQueue == q0 + Pushed(t)
      && emitted == e0 + Emitted(t)
    }

    /** The read loop, fed with the results of its successive reads. While
        the pipe runs and a client is connected it does what `Run` says:
        it pushes exactly the messages `Run` pushes, emits exactly what
        `Run` emits, in the same interleaving, and clears `clientConnected`
        exactly when `Run` stops on a disconnect. */
    method ReadLoop(results: seq<ReadResult>)
      requires WholeReads(Header, results)
      modifies this`readQueue, this`clientConnected, this`emitted, this`history
      ensures !old(pipeRunning && clientConnected) ==>
                readQueue == old(readQueue) && emitted == old(emitted) &&
                history == old(history) && clientConnected == old(clientConnected)
      ensures old(pipeRunning && clientConnected) ==>
                var o := Run(Header, results);
                && history == old(history) + o.trace
                && readQueue == old(readQueue) + Pushed(o.trace)
                && emitted == old(emitted) + Emitted(o.trace)
                && clientConnected == (o.stop != ClientClosed)
    {
      var readingHeader := true;
      var msgSize: nat := 0;
      var messageBuf: seq<Byte> := [];
      var i := 0;
      ghost var trace: seq<Action> := [];
      if !(pipeRunning && clientConnected) {
        return;
      }
      ghost var whole := Run(Header, results);
      assert whole == After([], 0, whole);
      assert Replays(old(history), old(readQueue), old(emitted), trace);

      while pipeRunning && clientConnected && i < |results|
        invariant i <= |results|
        invariant pipeRunning && clientConnected
        invariant WholeReads(PhaseOf(readingHeader, msgSize), results[i..])
        invariant whole == After(trace, i, Run(PhaseOf(readingHeader, msgSize), results[i..]))
        invariant Replays(old(history), old(readQueue), old(emitted), trace)
        decreases |results| - i
      {
        var more;
        more, readingHeader, msgSize, messageBuf, trace :=
          ReadOne(results, i, readingHeader, msgSize, messageBuf, whole, old(history), old(readQueue), old(emitted), trace);
        if !more {
          return;
        }
        i := i + 1;
      }
      assert results[i..] == [];
      AfterEnd(trace, i, PhaseOf(readingHeader, msgSize));
    }

    /** One pass of the read loop: the read at index `i` is handled and
        the replay of `whole` moves one result on, or the loop breaks with
        `whole` complete. */
    method ReadOne(results: seq<ReadResult>, i: nat, readingHeader: bool, msgSize: nat, messageBuf: seq<Byte>,
                   ghost whole: Outcome, ghost h0: seq<Action>, ghost q0: seq<Message>, ghost e0: seq<string>,
                   ghost trace: seq<Action>)
      returns (more: bool, nextReadingHeader: bool, nextMsgSize: nat, nextMessageBuf: seq<Byte>,
               ghost nextTrace: seq<Action>)
      requires i < |results|
      requires WholeReads(PhaseOf(readingHeader, msgSize), results[i..])
      requires whole == After(trace, i, Run(PhaseOf(readingHeader, msgSize), results[i..]))
      requires Replays(h0, q0, e0, trace)
      modifies this`readQueue, this`clientConnected, this`emitted, this`history
      ensures Replays(h0, q0, e0, nextTrace)
      ensures more ==>
                && clientConnected == old(clientConnected)
                && WholeReads(PhaseOf(nextReadingHeader, nextMsgSize), results[i + 1..])
                && whole == After(nextTrace, i + 1, Run(PhaseOf(nextReadingHeader, nextMsgSize), results[i + 1..]))
      ensures !more ==>
                && whole.trace == nextTrace
                && clientConnected == (old(clientConnected) && whole.stop != ClientClosed)
    {
      ghost var p := PhaseOf(readingHeader, msgSize);
      ghost var step := StepOf(p, results[i]);
      Advance(whole, trace, i, p, results);
      more, nextReadingHeader, nextMsgSize, nextMessageBuf := HandleRead(results[i], readingHeader, msgSize, messageBuf);
      if !more {
        assert trace + [] == trace;
        nextTrace := trace;
        return;
      }
      ghost var acts := step.actions;
      assert ActionsOf(step) == acts;
      ProjectionsAppend(trace, acts);
      nextTrace := trace + acts;
    }

    /** The write loop, fed with the outcome of each `WriteFile`. While the
        pipe runs and a client is connected it takes messages from the front
        of `writeQueue` one at a time and hands `WriteFile` each one's frame,
        cut to the 32-bit length it is asked to write; it stops when the
        queue is empty, the results run out, or a write is aborted (the
        message being written is then lost). */
    method WriteLoop(results: seq<WriteResult>)
      modifies this`writeQueue, this`wire
      ensures !old(pipeRunning && clientConnected) ==>
                writeQueue == old(writeQueue) && wire == old(wire)
      ensures old(pipeRunning && clientConnected) ==>
                && writeQueue == old(writeQueue)[Popped(|old(writeQueue)|, results)..]
                && wire == old(wire) + Wire(old(writeQueue)[..Sent(|old(writeQueue)|, results)])
    {
      if !(pipeRunning && clientConnected) {
        return;
      }
      ghost var queue := writeQueue;
      var i := 0;
      while pipeRunning && clientConnected && writeQueue != [] && i < |results|
        invariant i <= |results| && i <= |queue|
        invariant writeQueue == queue[i..]
        invariant wire == old(wire) + Wire(queue[..i])
        invariant forall k :: 0 <= k < i ==> results[k] == WriteCompleted
        decreases |results| - i
      {
        var msg := writeQueue[0];
        assert msg == queue[i] && writeQueue[1..] == queue[i + 1..];
        writeQueue := writeQueue[1..];
        var writeBuf := Frame(msg);
        var bytesToWrite := Dword(|writeBuf|);
        if results[i] == WriteAborted {
          SentIsFirstAbort(|queue|, results, i);
          return;
        }
        assert writeBuf[..bytesToWrite] == WriteRequest(queue[i]);
        WireGrows(old(wire), queue, i, wire);
        wire := wire + writeBuf[..bytesToWrite];
        i := i + 1;
      }
      SentIsFirstAbort(|queue|, results, i);
    }
  }

  /** A wire holding the requests for the first `i` queued messages,
      followed by the request for the next one, holds the requests for the
      first `i + 1`. */
  lemma WireGrows(w0: seq<Byte>, q: seq<Message>, i: nat, w: seq<Byte>)
    requires i < |q|
    requires w == w0 + Wire(q[..i])
    ensures w + WriteRequest(q[i]) == w0 + Wire(q[..i + 1])
  {
    var sent := Wire(q[..i]);
    var next := WriteRequest(q[i]);
    assert Wire(q[..i + 1]) == sent + next by {
      WireSnoc(q, i);
    }
    assert (w0 + sent) + next == w0 + (sent + next);
  }

  /** Writing one more message appends its request. */
  lemma WireSnoc(q: seq<Message>, i: nat)
    requires i < |q|
    ensures Wire(q[..i + 1]) == Wire(q[..i]) + WriteRequest(q[i])
  {
    var single := [q[i]];
    WireAppend(q[..i], single);
    assert q[..i + 1] == q[..i] + single;
    assert single[1..] == [];
  }

  /** `Sent` is the position of the first aborted write, or where the queue
      or the results end. */
  lemma SentIsFirstAbort(queued: nat, results: seq<WriteResult>, i: nat)
    requires i <= queued && i <= |results|
    requires forall k :: 0 <= k < i ==> results[k] == WriteCompleted
    requires i == queued || i == |results| || results[i] == WriteAborted
    ensures Sent(queued, results) == i
    ensures Popped(queued, results) == if i < queued && i < |results| then i + 1 else i
  {
  }

  /** The actions of a step; a step that ends the loop does nothing. */
  function ActionsOf(s: Step): seq<Action>
  {
    if s.Next? then s.actions else []
  }

  /** The phase the read loop is in, from its `readingHeader` and `msgSize`. */
  function PhaseOf(readingHeader: bool, msgSize: nat): Phase
  {
    if readingHeader then Header else Payload(msgSize)
  }

  /** After `removeAllListeners(event)` on a known event, the next `on` for
      it returns id 1 and the list holds only the new handler. */
  method RegisterAfterClear<H>(pipe: Pipe<H>, event: string, handler: H) returns (id: int)
    requires event in Events
    modifies pipe
    ensures id == 1 && pipe.Handlers(event) == [handler]
  {
    var cleared := pipe.RemoveAllListeners(event);
    id := pipe.On(event, handler);
  }

  /** Removing a listener by the id `on` returned for it undoes the
      registration: every event's list is as it was before. */
  method OnThenRemove<H>(pipe: Pipe<H>, event: string, handler: H) returns (id: int, r: int)
    requires event in Events
    modifies pipe
    ensures id >= 1 && r == id
    ensures forall e :: pipe.Handlers(e) == old(pipe.Handlers(e))
  {
    id := pipe.On(event, handler);
    r := pipe.RemoveListener(event, id);
    assert pipe.Handlers(event) == old(pipe.Handlers(event));
  }
}

=== FILE: pipe_name.dfy ===
/** The Win32 name under which the pipe is created: the fixed namespace
    prefix `\\.\pipe\` followed by the caller's name, as a NUL-terminated
    character buffer. */
module PipeName {

  /** The C literal `"\\\\.\\pipe\\"`, i.e. the nine characters `\\.\pipe\`. */
  const Prefix: string := "\\\\.\\pipe\\"

  lemma PrefixShape()
    ensures |Prefix| == 9
    ensures '\0' !in Prefix
  {
  }

  /** The characters `strlen` counts: everything before the first NUL. */
  function CString(s: string): (r: string)
    ensures |r| <= |s| && r == s[..|r|]
    ensures '\0' !in r
    ensures |r| < |s| ==> s[|r|] == '\0'
  {
    if s == [] || s[0] == '\0' then [] else [s[0]] + CString(s[1..])
  }

  /** The buffer `lpszPipename`: `prefixLen + nameLen + 1` characters, the
      prefix, then the first `nameLen` characters of the name, then a NUL. */
  function NameBuffer(pipeName: string): (r: string)
    ensures |r| == |Prefix| + |CString(pipeName)| + 1
    ensures r[..|Prefix|] == Prefix
    ensures r[|Prefix|..|r| - 1] == CString(pipeName)
    ensures r[|r| - 1] == '\0'
  {
    var nameLen := |CString(pipeName)|;
    Prefix + pipeName[..nameLen] + ['\0']
  }

  /** A NUL-free string followed by anything is read by `strlen` up to the
      first NUL of what follows. */
  lemma {:induction false} CStringAppend(a: string, b: string)
    requires '\0' !in a
    ensures CString(a + b) == a + CString(b)
  {
    if a != [] {
      assert (a + b)[0] == a[0];
      assert (a + b)[1..] == a[1..] + b;
      CStringAppend(a[1..], b);
    } else {
      assert a + b == b;
    }
  }

  /** The name the operating system reads from the buffer is the prefix
      followed by the caller's name up to its first NUL. */
  lemma NameSeenBySystem(pipeName: string)
    ensures CString(NameBuffer(pipeName)) == Prefix + CString(pipeName)
  {
    var name := CString(pipeName);
    PrefixShape();
    assert NameBuffer(pipeName) == (Prefix + name) + ['\0'];
    CStringAppend(Prefix + name, ['\0']);
    assert CString(['\0']) == [];
  }

  /** For a name without NUL the buffer is exactly prefix, name, NUL. */
  lemma PlainName(pipeName: string)
    requires '\0' !in pipeName
    ensures NameBuffer(pipeName) == Prefix + pipeName + ['\0']
    ensures |NameBuffer(pipeName)| == 9 + |pipeName| + 1
  {
    PrefixShape();
    CStringAppend(pipeName, []);
    assert pipeName + [] == pipeName;
    assert pipeName[..|pipeName|] == pipeName;
  }
}

=== FILE: read_decoder.dfy ===
/** The two-phase decoder that the read loop runs: read a 4-byte header,
    reject a zero length, read that many payload bytes, queue the payload and
    announce it with a `read` event, and start over. This module states the
    loop as a pure function over the sequence of results its reads return;
    `Ipc.Pipe.ReadLoop` is proved to perform exactly these steps. */
module ReadDecoder {
  import opened Framing

  /** What one overlapped `ReadFile` on the pipe ends with. A read that
      completes with 0 bytes is `Delivered([])`. `BrokenPipe` is the
      `ERROR_BROKEN_PIPE` failure; `Failed` stands for the other ways out of
      the loop: the stop event, a failed `GetOverlappedResult` and any other
      `ReadFile` error. */
  datatype ReadResult = Delivered(bytes: seq<Byte>) | BrokenPipe | Failed

  /** `readingHeader` / `msgSize` of the loop. */
  datatype Phase = Header | Payload(size: nat)

  /** What the loop does besides reading: push a message onto `readQueue`,
      or emit an event. */
  datatype Action = Push(message: Message) | Notify(event: string)

  /** Why the loop ended. `Waiting`: the model ran out of read results, where
      the program would still be blocked in its next read. */
  datatype Stop = Waiting | ClientClosed | InvalidSize | ReadFailed

  datatype Step = Next(phase: Phase, actions: seq<Action>) | Halt(stop: Stop)

  /** `bytesToRead` for each phase. */
  function Requested(p: Phase): nat
  {
    match p
    case Header => HeaderSize
    case Payload(n) => n
  }

  /** One iteration of the read loop. */
  function StepOf(p: Phase, r: ReadResult): (s: Step)
  {
    match r
    case BrokenPipe => Halt(ClientClosed)
    case Failed => Halt(ReadFailed)
    case Delivered(b) =>
      if b == [] then Halt(ClientClosed)
      else match p
        case Header =>
          var n := FromLittleEndian(b);
          if n == 0 then Halt(InvalidSize) else Next(Payload(n), [])
        case Payload(_) => Next(Header, [Push(b), Notify("read")])
  }

  /** The four things one iteration can do, each with the exact condition
      under which it happens: a 0-byte read or a broken pipe ends the loop as
      a disconnect; any other failure ends it; a header announcing 0 ends it
      as invalid; a non-zero header switches to payload phase for that many
      bytes; a payload is pushed, `read` is emitted after it, and the loop
      returns to header phase. */
  lemma StepCases(p: Phase, r: ReadResult)
    requires r.Delivered? && r.bytes != [] && p.Header? ==> |r.bytes| == HeaderSize
    ensures StepOf(p, r) != Halt(Waiting)
    ensures StepOf(p, r) == Halt(ClientClosed) <==> r.BrokenPipe? || r == Delivered([])
    ensures StepOf(p, r) == Halt(ReadFailed) <==> r.Failed?
    ensures StepOf(p, r) == Halt(InvalidSize) <==>
              p.Header? && r.Delivered? && r.bytes != [] && DecodeHeader(r.bytes) == 0
    ensures StepOf(p, r).Next? && StepOf(p, r).phase.Payload? <==>
              p.Header? && r.Delivered? && r.bytes != [] && DecodeHeader(r.bytes) != 0
    ensures StepOf(p, r).Next? && StepOf(p, r).phase.Payload? ==>
              StepOf(p, r) == Next(Payload(DecodeHeader(r.bytes)), [])
    ensures StepOf(p, r).Next? && StepOf(p, r).phase.Header? <==> p.Payload? && r.Delivered? && r.bytes != []
    ensures StepOf(p, r).Next? && StepOf(p, r).phase.Header? ==>
              StepOf(p, r) == Next(Header, [Push(r.bytes), Notify("read")])
  {
  }

  /** The assumption the program makes without checking it: every read
      either delivers exactly the requested number of bytes or 0 bytes. */
  predicate WholeReads(p: Phase, results: seq<ReadResult>)
    decreases |results|
  {
    results == [] ||
    ((results[0].Delivered? ==> results[0].bytes == [] || |results[0].bytes| == Requested(p)) &&
     match StepOf(p, results[0])
     case Next(q, _) => WholeReads(q, results[1..])
     case Halt(_) => true)
  }

  /** The effect of running the loop over `results`, from phase `p`: what it
      did in order, the phase it is in, why it stopped and how many read
      results it took. */
  datatype Outcome = Outcome(trace: seq<Action>, phase: Phase, stop: Stop, consumed: nat)

  /** `o` preceded by `k` reads that did `t`. */
  function After(t: seq<Action>, k: nat, o: Outcome): Outcome
  {
    o.(trace := t + o.trace, consumed := k + o.consumed)
  }

  function Run(p: Phase, results: seq<ReadResult>): (o: Outcome)
    requires WholeReads(p, results)
    ensures o.consumed <= |results|
    ensures o.stop == Waiting ==> o.consumed == |results|
    decreases |results|
  {
    if results == [] then Outcome([], p, Waiting, 0)
    else match StepOf(p, results[0])
      case Halt(why) => assert why != Waiting; Outcome([], p, why, 1)
      case Next(q, acts) => After(acts, 1, Run(q, results[1..]))
  }

  /** Running from the `i`-th result: one step, then the rest. */
  lemma RunAt(p: Phase, results: seq<ReadResult>, i: nat)
    requires i < |results|
    requires WholeReads(p, results[i..])
    ensures StepOf(p, results[i]).Halt? ==>
              Run(p, results[i..]) == Outcome([], p, StepOf(p, results[i]).stop, 1)
    ensures StepOf(p, results[i]).Next? ==>
              && WholeReads(StepOf(p, results[i]).phase, results[i + 1..])
              && Run(p, results[i..])
                 == After(StepOf(p, results[i]).actions, 1, Run(StepOf(p, results[i]).phase, results[i + 1..]))
  {
    assert results[i..][0] == results[i];
    assert results[i..][1..] == results[i + 1..];
  }

  /** One more step of a run that has so far taken `i` results and done `t`:
      either it stops there, or it goes on from the next phase with the
      step's actions added. */
  lemma Advance(whole: Outcome, t: seq<Action>, i: nat, p: Phase, results: seq<ReadResult>)
    requires i < |results| && WholeReads(p, results[i..])
    requires whole == After(t, i, Run(p, results[i..]))
    ensures StepOf(p, results[i]).Halt? ==> whole == Outcome(t, p, StepOf(p, results[i]).stop, i + 1)
    ensures StepOf(p, results[i]).Next? ==>
              && WholeReads(StepOf(p, results[i]).phase, results[i + 1..])
              && whole == After(t + StepOf(p, results[i]).actions, i + 1,
                                Run(StepOf(p, results[i]).phase, results[i + 1..]))
  {
    RunAt(p, results, i);
    match StepOf(p, results[i])
    case Halt(_) =>
      assert t + [] == t;
    case Next(q, acts) =>
      AfterAfter(t, i, acts, 1, Run(q, results[i + 1..]));
  }

  /** A run that has used up its results after `k` steps that did `t`. */
  lemma AfterEnd(t: seq<Action>, k: nat, p: Phase)
    ensures After(t, k, Run(p, [])) == Outcome(t, p, Waiting, k)
  {
    assert t + [] == t;
  }

  /** The messages pushed onto `readQueue`, in order. */
  function Pushed(t: seq<Action>): seq<Message>
  {
    if t == [] then []
    else (if t[0].Push? then [t[0].message] else []) + Pushed(t[1..])
  }

  /** The events emitted, in order. */
  function Emitted(t: seq<Action>): seq<string>
  {
    if t == [] then []
    else (if t[0].Notify? then [t[0].event] else []) + Emitted(t[1..])
  }

  lemma {:induction false} ProjectionsAppend(a: seq<Action>, b: seq<Action>)
    ensures Pushed(a + b) == Pushed(a) + Pushed(b)
    ensures Emitted(a + b) == Emitted(a) + Emitted(b)
  {
    PushedAppend(a, b);
    EmittedAppend(a, b);
  }

  lemma {:induction false} PushedAppend(a: seq<Action>, b: seq<Action>)
    ensures Pushed(a + b) == Pushed(a) + Pushed(b)
  {
    if a == [] {
      assert a + b == b;
    } else {
      var c := a + b;
      assert c[0] == a[0] && c[1..] == a[1..] + b;
      PushedAppend(a[1..], b);
    }
  }

  lemma {:induction false} EmittedAppend(a: seq<Action>, b: seq<Action>)
    ensures Emitted(a + b) == Emitted(a) + Emitted(b)
  {
    if a == [] {
      assert a + b == b;
    } else {
      var c := a + b;
      assert c[0] == a[0] && c[1..] == a[1..] + b;
      EmittedAppend(a[1..], b);
    }
  }

  lemma ProjectionsOfPair(m: Message)
    ensures Pushed([Push(m), Notify("read")]) == [m]
    ensures Emitted([Push(m), Notify("read")]) == ["read"]
  {
    var pair := [Push(m), Notify("read")];
    var second := [Notify("read")];
    assert pair[1..] == second;
    assert second[1..] == [];
    assert Pushed(second) == [] && Emitted(second) == ["read"];
  }

  /** The reads that deliver the frames of `ms` exactly as the loop asks for
      them: the header of each message, then its payload. */
  function FrameReads(ms: seq<Message>): (results: seq<ReadResult>)
    requires forall i :: 0 <= i < |ms| ==> Sendable(ms[i])
  {
    if ms == [] then []
    else
      assert Sendable(ms[0]);
      [Delivered(EncodeHeader(|ms[0]|)), Delivered(ms[0])] + FrameReads(ms[1..])
  }

  /** The bytes a sequence of reads delivers, concatenated. */
  function Received(results: seq<ReadResult>): seq<Byte>
  {
    if results == [] then []
    else (if results[0].Delivered? then results[0].bytes else []) + Received(results[1..])
  }

  /** What the loop does for the messages `ms`: for each one, push it, then emit `read`. */
  function Interleaved(ms: seq<Message>): seq<Action>
  {
    if ms == [] then [] else [Push(ms[0]), Notify("read")] + Interleaved(ms[1..])
  }

  function Repeat(s: string, n: nat): (r: seq<string>)
  {
    if n == 0 then [] else [s] + Repeat(s, n - 1)
  }

  lemma ReceivedPair(a: seq<Byte>, b: seq<Byte>, rest: seq<ReadResult>)
    ensures Received([Delivered(a), Delivered(b)] + rest) == a + b + Received(rest)
  {
    var results := [Delivered(a), Delivered(b)] + rest;
    assert results[1..] == [Delivered(b)] + rest;
    assert results[1..][1..] == rest;
  }

  /** The frame reads are a split of exactly the bytes the writer produces. */
  lemma {:induction false} FrameReadsCarryFrames(ms: seq<Message>)
    requires forall i :: 0 <= i < |ms| ==> Sendable(ms[i])
    ensures Received(FrameReads(ms)) == Frames(ms)
  {
    if ms != [] {
      var h := EncodeHeader(|ms[0]|);
      var rest := FrameReads(ms[1..]);
      assert FrameReads(ms) == [Delivered(h), Delivered(ms[0])] + rest;
      ReceivedPair(h, ms[0], rest);
      FrameReadsCarryFrames(ms[1..]);
      FrameOfFittingMessage(ms[0]);
    }
  }

  /** In the loop's trace for `ms`, the k-th message is pushed at position
      2k and its `read` emission follows immediately at 2k+1. */
  lemma {:induction false} InterleavedOrder(ms: seq<Message>, k: nat)
    requires k < |ms|
    ensures |Interleaved(ms)| == 2 * |ms|
    ensures Interleaved(ms)[2 * k] == Push(ms[k])
    ensures Interleaved(ms)[2 * k + 1] == Notify("read")
  {
    if k == 0 {
      InterleavedLength(ms);
    } else {
      InterleavedOrder(ms[1..], k - 1);
      InterleavedLength(ms);
    }
  }

  lemma {:induction false} InterleavedLength(ms: seq<Message>)
    ensures |Interleaved(ms)| == 2 * |ms|
  {
    if ms != [] {
      InterleavedLength(ms[1..]);
    }
  }

  /** The trace for `ms` pushes exactly `ms` and emits one `read` per message. */
  lemma {:induction false} InterleavedProjections(ms: seq<Message>)
    ensures Pushed(Interleaved(ms)) == ms
    ensures Emitted(Interleaved(ms)) == Repeat("read", |ms|)
  {
    if ms != [] {
      var head := [Push(ms[0]), Notify("read")];
      ProjectionsAppend(head, Interleaved(ms[1..]));
      assert head[1..] == [Notify("read")];
      assert Pushed(head) == [ms[0]];
      assert Emitted(head) == ["read"];
      InterleavedProjections(ms[1..]);
    }
  }

  /** One frame: the header read switches to payload phase, the payload
      read pushes the message and emits `read`, and the loop is back in
      header phase. */
  lemma RunFrame(m: Message, tail: seq<ReadResult>)
    requires Sendable(m)
    requires WholeReads(Header, tail)
    ensures WholeReads(Header, [Delivered(EncodeHeader(|m|)), Delivered(m)] + tail)
    ensures Run(Header, [Delivered(EncodeHeader(|m|)), Delivered(m)] + tail)
         == After([Push(m), Notify("read")], 2, Run(Header, tail))
  {
    var results := [Delivered(EncodeHeader(|m|)), Delivered(m)] + tail;
    assert results[1..] == [Delivered(m)] + tail;
    assert results[1..][1..] == tail;
    assert StepOf(Header, results[0]) == Next(Payload(|m|), []);
    assert StepOf(Payload(|m|), results[1..][0]) == Next(Header, [Push(m), Notify("read")]);
    assert Run(Payload(|m|), results[1..]) == After([Push(m), Notify("read")], 1, Run(Header, tail));
  }

  /** Reading the frames of `ms` and then anything else: the loop handles
      every frame (push, then `read`) and continues in header phase with
      what follows. */
  lemma {:induction false} RunFrames(ms: seq<Message>, rest: seq<ReadResult>)
    requires forall i :: 0 <= i < |ms| ==> Sendable(ms[i])
    requires WholeReads(Header, rest)
    ensures WholeReads(Header, FrameReads(ms) + rest)
    ensures Run(Header, FrameReads(ms) + rest) == After(Interleaved(ms), 2 * |ms|, Run(Header, rest))
  {
    if ms == [] {
      assert FrameReads(ms) + rest == rest;
    } else {
      var m := ms[0];
      var tail := FrameReads(ms[1..]) + rest;
      var o := Run(Header, rest);
      var first := [Push(m), Notify("read")];
      assert FrameReads(ms) + rest == [Delivered(EncodeHeader(|m|)), Delivered(m)] + tail;
      assert WholeReads(Header, tail) && Run(Header, tail) == After(Interleaved(ms[1..]), 2 * |ms[1..]|, o) by {
        RunFrames(ms[1..], rest);
      }
      assert WholeReads(Header, [Delivered(EncodeHeader(|m|)), Delivered(m)] + tail)
          && Run(Header, [Delivered(EncodeHeader(|m|)), Delivered(m)] + tail) == After(first, 2, Run(Header, tail)) by {
        RunFrame(m, tail);
      }
      AfterAfter(first, 2, Interleaved(ms[1..]), 2 * |ms[1..]|, o);
      assert Interleaved(ms) == first + Interleaved(ms[1..]);
    }
  }

  lemma AfterAfter(t1: seq<Action>, k1: nat, t2: seq<Action>, k2: nat, o: Outcome)
    ensures After(t1, k1, After(t2, k2, o)) == After(t1 + t2, k1 + k2, o)
  {
    assert t1 + (t2 + o.trace) == (t1 + t2) + o.trace;
  }

  /** Round trip: the frames of non-empty messages m1..mk decode to exactly
      m1..mk, in order, with one `read` per message, and the loop is left
      waiting for the next header. */
  lemma RoundTrip(ms: seq<Message>)
    requires forall i :: 0 <= i < |ms| ==> Sendable(ms[i])
    ensures WholeReads(Header, FrameReads(ms))
    ensures Run(Header, FrameReads(ms)) == Outcome(Interleaved(ms), Header, Waiting, 2 * |ms|)
    ensures Pushed(Run(Header, FrameReads(ms)).trace) == ms
    ensures Emitted(Run(Header, FrameReads(ms)).trace) == Repeat("read", |ms|)
  {
    RunFramesAlone(ms);
    InterleavedProjections(ms);
  }

  lemma RunFramesAlone(ms: seq<Message>)
    requires forall i :: 0 <= i < |ms| ==> Sendable(ms[i])
    ensures WholeReads(Header, FrameReads(ms))
    ensures Run(Header, FrameReads(ms)) == Outcome(Interleaved(ms), Header, Waiting, 2 * |ms|)
  {
    var o := Run(Header, []);
    assert o == Outcome([], Header, Waiting, 0);
    assert WholeReads(Header, FrameReads(ms) + []) && Run(Header, FrameReads(ms) + []) == After(Interleaved(ms), 2 * |ms|, o) by {
      RunFrames(ms, []);
    }
    assert FrameReads(ms) + [] == FrameReads(ms);
    assert Interleaved(ms) + o.trace == Interleaved(ms);
  }

  /** Whole, non-empty reads that together deliver the frames of `ms` can
      only be the header/payload split `FrameReads(ms)`: the loop's requested
      sizes force every boundary. */
  lemma {:induction false} SplitIsForced(ms: seq<Message>, results: seq<ReadResult>)
    requires forall i :: 0 <= i < |ms| ==> Sendable(ms[i])
    requires forall k :: 0 <= k < |results| ==> results[k].Delivered? && results[k].bytes != []
    requires WholeReads(Header, results)
    requires Received(results) == Frames(ms)
    ensures results == FrameReads(ms)
  {
    if ms == [] {
      NothingReceived(results);
    } else {
      var m := ms[0];
      FrameOfFittingMessage(m);
      assert Frames(ms) == EncodeHeader(|m|) + (m + Frames(ms[1..]));
      FirstFrame(m, Frames(ms[1..]), results);
      SplitIsForced(ms[1..], results[2..]);
      assert results == [results[0], results[1]] + results[2..];
    }
  }

  /** Non-empty reads that deliver nothing are no reads at all. */
  lemma NothingReceived(results: seq<ReadResult>)
    requires forall k :: 0 <= k < |results| ==> results[k].Delivered? && results[k].bytes != []
    requires Received(results) == []
    ensures results == []
  {
  }

  /** Whole, non-empty reads that deliver the frame of `m` first deliver its
      header in one read and its payload in the next. */
  lemma FirstFrame(m: Message, more: seq<Byte>, results: seq<ReadResult>)
    requires Sendable(m)
    requires forall k :: 0 <= k < |results| ==> results[k].Delivered? && results[k].bytes != []
    requires WholeReads(Header, results)
    requires Received(results) == EncodeHeader(|m|) + (m + more)
    ensures |results| >= 2 && results[0] == Delivered(EncodeHeader(|m|)) && results[1] == Delivered(m)
    ensures WholeReads(Header, results[2..]) && Received(results[2..]) == more
  {
    FirstRead(Header, results, EncodeHeader(|m|), m + more);
    assert StepOf(Header, results[0]) == Next(Payload(|m|), []);
    FirstRead(Payload(|m|), results[1..], m, more);
    assert StepOf(Payload(|m|), results[1..][0]) == Next(Header, [Push(m), Notify("read")]);
    assert results[1..][1..] == results[2..];
  }

  /** The first of some whole, non-empty reads that deliver `x + tail`,
      where `x` is what the loop asks for first, delivers exactly `x`. */
  lemma FirstRead(p: Phase, results: seq<ReadResult>, x: seq<Byte>, tail: seq<Byte>)
    requires forall k :: 0 <= k < |results| ==> results[k].Delivered? && results[k].bytes != []
    requires WholeReads(p, results)
    requires |x| == Requested(p) > 0
    requires Received(results) == x + tail
    ensures results != [] && results[0] == Delivered(x) && Received(results[1..]) == tail
  {
    assert |Received(results)| > 0;
    var b := results[0].bytes;
    assert Received(results) == b + Received(results[1..]);
    assert |b| == |x|;
    assert b == (x + tail)[..|x|] == x;
    assert Received(results[1..]) == (x + tail)[|x|..] == tail;
  }

  /** Any whole, non-empty reads of the frames of `ms` queue exactly `ms`
      with one `read` emission each. */
  lemma DecodeFrames(ms: seq<Message>, results: seq<ReadResult>)
    requires forall i :: 0 <= i < |ms| ==> Sendable(ms[i])
    requires forall k :: 0 <= k < |results| ==> results[k].Delivered? && results[k].bytes != []
    requires WholeReads(Header, results)
    requires Received(results) == Frames(ms)
    ensures Pushed(Run(Header, results).trace) == ms
    ensures Emitted(Run(Header, results).trace) == Repeat("read", |ms|)
    ensures Run(Header, results).stop == Waiting
  {
    SplitIsForced(ms, results);
    RoundTrip(ms);
  }

  /** From writer to reader: any whole, non-empty reads of what the write
      loop hands to `WriteFile` for non-empty messages whose frames fit the
      32-bit write length queue exactly those messages, one `read` each. */
  lemma WriteThenRead(ms: seq<Message>, results: seq<ReadResult>)
    requires forall i :: 0 <= i < |ms| ==> 0 < |ms[i]| && |ms[i]| + HeaderSize < U32Limit
    requires forall k :: 0 <= k < |results| ==> results[k].Delivered? && results[k].bytes != []
    requires WholeReads(Header, results)
    requires Received(results) == Wire(ms)
    ensures Pushed(Run(Header, results).trace) == ms
    ensures Emitted(Run(Header, results).trace) == Repeat("read", |ms|)
    ensures Run(Header, results).stop == Waiting
  {
    WireOfShortMessages(ms);
    assert forall i :: 0 <= i < |ms| ==> Sendable(ms[i]);
    DecodeFrames(ms, results);
  }

  /** A header announcing 0 bytes after some frames stops the loop: nothing
      further is queued, whatever the peer sends next. */
  lemma ZeroHeaderStops(ms: seq<Message>, rest: seq<ReadResult>)
    requires forall i :: 0 <= i < |ms| ==> Sendable(ms[i])
    ensures WholeReads(Header, FrameReads(ms) + [Delivered(EncodeHeader(0))] + rest)
    ensures Run(Header, FrameReads(ms) + [Delivered(EncodeHeader(0))] + rest)
         == Outcome(Interleaved(ms), Header, InvalidSize, 2 * |ms| + 1)
  {
    var zero := Delivered(EncodeHeader(0));
    var tail := [zero] + rest;
    ZeroHeaderRun(rest);
    RunFrames(ms, tail);
    assert FrameReads(ms) + [zero] + rest == FrameReads(ms) + tail;
    var o := Run(Header, tail);
    assert o == Outcome([], Header, InvalidSize, 1);
    assert Interleaved(ms) + o.trace == Interleaved(ms);
  }

  lemma ZeroHeaderRun(rest: seq<ReadResult>)
    ensures WholeReads(Header, [Delivered(EncodeHeader(0))] + rest)
    ensures Run(Header, [Delivered(EncodeHeader(0))] + rest) == Outcome([], Header, InvalidSize, 1)
  {
    var tail := [Delivered(EncodeHeader(0))] + rest;
    assert tail[0] == Delivered(EncodeHeader(0));
    assert StepOf(Header, Delivered(EncodeHeader(0))) == Halt(InvalidSize);
  }

  /** The peer going away after the header of `m` but before its payload
      (a 0-byte read or a broken pipe) ends the loop with `ClientClosed`;
      the messages before `m` are queued and `m` never is. */
  lemma CutPayloadNotQueued(ms: seq<Message>, m: Message, end: ReadResult)
    requires forall i :: 0 <= i < |ms| ==> Sendable(ms[i])
    requires Sendable(m)
    requires end == Delivered([]) || end == BrokenPipe
    ensures WholeReads(Header, FrameReads(ms) + [Delivered(EncodeHeader(|m|)), end])
    ensures Run(Header, FrameReads(ms) + [Delivered(EncodeHeader(|m|)), end])
         == Outcome(Interleaved(ms), Payload(|m|), ClientClosed, 2 * |ms| + 2)
    ensures Pushed(Run(Header, FrameReads(ms) + [Delivered(EncodeHeader(|m|)), end]).trace) == ms
  {
    var tail := [Delivered(EncodeHeader(|m|)), end];
    var o := Outcome([], Payload(|m|), ClientClosed, 2);
    assert WholeReads(Header, tail) && Run(Header, tail) == o by {
      CutFrame(m, end);
    }
    assert Run(Header, FrameReads(ms) + tail) == After(Interleaved(ms), 2 * |ms|, o) by {
      RunFrames(ms, tail);
    }
    assert Interleaved(ms) + o.trace == Interleaved(ms);
    InterleavedProjections(ms);
  }

  lemma CutFrame(m: Message, end: ReadResult)
    requires Sendable(m)
    requires end == Delivered([]) || end == BrokenPipe
    ensures WholeReads(Header, [Delivered(EncodeHeader(|m|)), end])
    ensures Run(Header, [Delivered(EncodeHeader(|m|)), end]) == Outcome([], Payload(|m|), ClientClosed, 2)
  {
    var tail := [Delivered(EncodeHeader(|m|)), end];
    assert tail[1..] == [end];
    assert StepOf(Header, tail[0]) == Next(Payload(|m|), []);
    assert StepOf(Payload(|m|), end) == Halt(ClientClosed);
  }

  /** The writer frames an empty message with a zero header, which the
      reader rejects: an empty message stops the receiving loop. */
  lemma EmptyMessageStopsReader(rest: seq<ReadResult>)
    ensures Frame([]) == EncodeHeader(0)
    ensures WholeReads(Header, [Delivered(Frame([]))] + rest)
    ensures Run(Header, [Delivered(Frame([]))] + rest).stop == InvalidSize
    ensures Run(Header, [Delivered(Frame([]))] + rest).trace == []
  {
    var results := [Delivered(Frame([]))] + rest;
    assert results[0] == Delivered(EncodeHeader(0));
  }

  /** The bytes `05 00 00 00` followed by `hello` queue one message, `hello`,
      and emit `read` once. */
  lemma HelloScenario()
    ensures WholeReads(Header, [Delivered([5, 0, 0, 0]), Delivered([104, 101, 108, 108, 111])])
    ensures Run(Header, [Delivered([5, 0, 0, 0]), Delivered([104, 101, 108, 108, 111])]).trace
         == [Push([104, 101, 108, 108, 111]), Notify("read")]
  {
    var hello: Message := [104, 101, 108, 108, 111];
    assert EncodeHeader(5) == [5, 0, 0, 0];
    RunFrame(hello, []);
    assert [Delivered(EncodeHeader(5)), Delivered(hello)] + [] == [Delivered([5, 0, 0, 0]), Delivered(hello)];
  }
}
